=== FILE: README.md ===
# Task generator scheduling and generation pipeline, in Dafny

This project models the core of a task generator service. The service turns policy records into seed tasks. A policy has a master record (`PolicyConfig`, with an enabled flag) and a generation configuration (`PolicyTaskGenConfig`, with query text, a cron expression and a task kind, SCHEDULED or ONE_TIME). Generation runs the query and stores one `SeedTask` per result row.

The model covers four parts, each written as pure state transitions over immutable values:

- **Tables** (`Models`, `Crud`): the three tables are sequences in insertion order inside a `Store`. The persistence operations the pipeline uses are modelled over it: first-match lookups, offset/limit listings, the enable/disable update, the pending filter, task creation and the consume mark.
- **Generation executor** (`Services`): the query backend is a parameter `run` from query text to a `QueryOutcome` (a failure, or columns and rows of cells). A commit failure is a parameter `failAt`, the index of the first row whose commit fails. Row normalisation, the enablement gate, row-at-a-time persistence and the one-time generate-then-consume path are modelled.
- **Job registry** (`JobRegistry`): a `Registry` holds the map from policy identifier to job identifier and the set of job identifiers the cron engine holds. Cron parsing is a parameter `validCron`.
- **Scheduler passes** (`Scheduler`):
  - the gate a cron firing goes through;
  - one cycle of the monitor loop, as a method whose loops add and remove in an arbitrary order over the two set differences, proved equal to a declarative reconciled set;
  - the add-only load pass, with its count.

The registry invariant `Inv` says two things: each entry maps a policy `p` to `"policy_" + p`, and the engine holds exactly the jobs of the entries. It holds for the empty registry and is preserved by every add and remove. Under it, a registry is `RegistryOf(its active set)`. The reconciliation and load results are stated through that.

Behaviours of the code that the model reproduces and that a reader may not expect:

- A persistence failure part-way through a batch makes `generate_seed_tasks` return 0 (its `except` branch), not the number of rows committed. The committed rows stay.
- Both the monitor cycle and the load pass read at most 100 generation configurations, because the listing's default limit is 100. The model takes the first 100 in insertion order; the database fixes no order (see "Left out").
- The load pass counts ONE_TIME configurations of enabled policies as loaded, although they register no job. The count is only logged; the model returns it.
- `remove_policy_job` drops an entry only when the engine still holds its job.
- The cycle adds a desired identifier using the one configuration `.first()` returns for it, which the model takes to be the earliest stored. If that configuration is ONE_TIME, a cycle never adds the identifier, even when a later configuration for it is SCHEDULED. The load pass at start-up and on reload is different: it adds every enabled configuration, so that later SCHEDULED configuration does get a job, and every cycle afterwards keeps it because the identifier is both active and desired. When the job fires, `_execute_policy` looks up the first configuration again, finds it ONE_TIME and generates nothing.
- `get_pending_seed_tasks` treats the identifier `""` like no identifier. So a one-time run for a configuration whose policy identifier is `""` consumes the pending tasks of every policy.

## Model

| member | source | states |
|---|---|---|
| Models.ParseTaskType | app/models.py:7-9 | a `.value` string maps to the member whose `.value` it is, and any other string to nothing |
| Models.ParseValueRoundTrip | app/models.py:7-9 | each of the two kinds survives the trip through its `.value` string |
| Models.NewPolicyConfig | app/models.py:17 | a policy record created without an explicit flag is enabled |
| Models.NewSeedTask | app/models.py:56-57 | a new seed task is unconsumed and carries its (non-optional) parameters |
| Models.AtMostOnePolicyRecord | app/models.py:15 | under the unique policy_id column two policy records with the same identifier are the same record |
| Models.WellFormedIgnoresGenConfigs | app/models.py:26 | the store's constraints place none on generation configurations, so several may share a policy identifier |
| Crud.FirstIndex | app/crud.py:10 | the `.first()` of a filter: the index of the earliest matching row, with no match before it, or none exactly when no row matches |
| Crud.GetPolicyConfigs | app/crud.py:6-7 | the listing is exactly the slice of the table from `skip`, of length min(`limit`, size − `skip`) and empty when `skip` is past the end |
| Crud.GetPolicyTaskGenConfigs | app/crud.py:27-28 | the listing is exactly the slice of the table from `skip`, of length min(`limit`, size − `skip`) and empty when `skip` is past the end |
| Crud.GetSeedTasks | app/crud.py:65-66 | the listing is exactly the slice of the table from `skip`, of length min(`limit`, size − `skip`) and empty when `skip` is past the end |
| Crud.Window | app/crud.py:27-28 | without paging arguments the listing is the first min(100, table size) configurations |
| Crud.GetPolicyConfig | app/crud.py:9-10 | the earliest record with the identifier, or none exactly when no record has it |
| Crud.GetPolicyTaskGenConfig | app/crud.py:30-31 | the earliest configuration with the identifier, or none exactly when no configuration has it |
| Crud.UniquePolicyLookup | app/models.py:15 | under the uniqueness constraint the lookup returns the one record of that identifier |
| Crud.FirstGenConfigLookup | app/crud.py:30-31 | with shared identifiers the lookup returns the configuration at the first index carrying it |
| Crud.GetEnabledPolicyConfigs | app/crud.py:33-35 | returns every generation configuration, one result per row: the same configurations with the same multiplicities as the table |
| Crud.EnabledListingIgnoresEnablement | app/crud.py:33-35 | a configuration whose policy is disabled is still in the "enabled" listing |
| Crud.UpdatePolicyConfigStatus | app/crud.py:18-24 | the matched record gets the given flag and nothing else changes; a lookup afterwards returns the updated record; with no record the store is unchanged and the answer is none |
| Crud.GetPendingSeedTasks | app/crud.py:68-72 | a task is returned iff it is stored, unconsumed, and belongs to the policy when a non-empty identifier is given; each returned task appears as often as the table holds it |
| Crud.CreateSeedTask | app/crud.py:74-78 | appends exactly one unconsumed task with the next identity and the given fields, returns it, and keeps the store well formed |
| Crud.MarkSeedTaskConsumed | app/crud.py:80-86 | only a task with the given identity changes, and only its flag, which becomes true; none exactly when no task has that identity, and then the store is unchanged |
| Crud.MarkNeverClears | app/crud.py:80-86 | a consumed flag is never set back to false |
| Crud.MarkIdempotent | app/crud.py:80-86 | marking a task twice gives the same store as marking it once |
| Services.RowDict | app/services.py:24-30 | the row dict has exactly one entry per column name |
| Services.RowDictLastWins | app/services.py:25-30 | a repeated column name keeps the normalised cell of its last occurrence |
| Services.ExecuteTaskGenerationSql | app/services.py:16-35 | a failing query, or a row narrower than the columns, yields no rows; otherwise there is one dict per result row, keyed by the columns |
| Services.NormalisedCells | app/services.py:27-30 | a cell with a `.value` attribute is replaced by that value; a plain cell is kept unchanged |
| Services.PersistRows | app/services.py:53-61 | one task per row, in row order, with consecutive identities; everything stored before is untouched |
| Services.GenerateSeedTasks | app/services.py:37-68 | a missing or disabled policy gives 0 and no writes; success stores one task per row and returns the row count; a commit failure at row K keeps rows before K stored and returns 0 |
| Services.GenerateAppendsOwnTasks | app/services.py:52-61 | generation only appends unconsumed tasks carrying the configuration's policy and kind |
| Services.GetOneTimeTasks | app/services.py:70-72 | the pending tasks of the policy, or of every policy when the identifier is "", each as often as the table holds it |
| Services.ConsumeOneTimeTask | app/services.py:74-77 | true exactly when a task with the identity exists, and that task is then consumed; only a task of that identity changes, only its flag, and the other tables are unchanged |
| Services.ConsumeAll | app/services.py:89-91 | each listed task is marked in turn; with unique identities exactly the listed tasks become consumed and nothing else changes |
| Services.HandleOneTimeTaskGeneration | app/services.py:79-94 | a non-ONE_TIME configuration, or a missing or disabled policy, gives 0 and no writes; the answer is the generation count; with answer 0 the store is what generation left: the rows committed before a failure (none otherwise) appended as unconsumed tasks, and nothing else changed |
| Services.OneTimeConsumesAllPending | app/services.py:85-94 | after a run that generated tasks, no task of the policy is pending, including tasks pending before the call; for "" no task of any policy is pending |
| Services.OneTimeKeepsGeneratedTasks | app/services.py:79-94 | after a run that generated n tasks, the store holds n new tasks, one per row in row order under consecutive identities, each already consumed; an earlier task is unchanged or only consumed, and then belongs to the policy (any policy for "") |
| Services.OneTimeLeavesOtherPoliciesAlone | app/services.py:89-91 | for a non-empty identifier, tasks of other policies are unchanged |
| Services.OneTimePartialFailureLeavesPending | app/services.py:85-88 | when the commit fails at row K, the answer is 0 and the K committed tasks stay pending |
| JobRegistry.JobIdInjective | app/scheduler.py:63 | distinct policies never share a job identifier |
| JobRegistry.Empty | app/scheduler.py:18-19 | a new scheduler's registry has no entries and no engine jobs, and satisfies the registry invariant |
| JobRegistry.RemovePolicyJob | app/scheduler.py:82-88 | an absent identifier is a no-op; an entry whose job the engine holds is removed with its job and every other entry is unchanged; the invariant is preserved |
| JobRegistry.RemoveFromRegistryOf | app/scheduler.py:82-88 | on an invariant registry, removal takes exactly that identifier out of the active set |
| JobRegistry.AddPolicyJob | app/scheduler.py:51-80 | ONE_TIME succeeds and changes nothing. SCHEDULED with a valid cron maps the id to `"policy_" + id`, grows the map by at most one and changes no other key. An invalid cron fails after the removal already happened, so the id ends without a job. The invariant is preserved |
| JobRegistry.AddToRegistryOf | app/scheduler.py:60-76 | on an invariant registry a SCHEDULED add makes the id active when the cron is valid and inactive when it is not |
| JobRegistry.AddPolicyJobIdempotent | app/scheduler.py:59-76 | adding the same configuration twice gives the same registry and result as adding it once |
| JobRegistry.JobCountMatchesActivePolicies | app/scheduler.py:182-188 | under the invariant the engine's job count equals the number of active policies |
| JobRegistry.AddPolicyJobCount | app/scheduler.py:60-76 | a successful SCHEDULED add raises the job count by one for a new policy and leaves it unchanged for a registered one |
| Scheduler.ExecutePolicy | app/scheduler.py:90-112 | generation runs exactly when a configuration exists, its policy record exists and is enabled, and its kind is SCHEDULED; otherwise the store is unchanged |
| Scheduler.ExecuteAddsOnlyOwnScheduledTasks | app/scheduler.py:95-106 | a firing only appends unconsumed SCHEDULED tasks of its own policy |
| Scheduler.ComputeDesired | app/scheduler.py:130-135 | the desired set is the identifiers of configurations in the list whose policy is enabled and whose kind is SCHEDULED |
| Scheduler.AddStep | app/scheduler.py:139-143 | adding a desired identifier without a job activates it exactly when its first configuration is SCHEDULED with a valid cron |
| Scheduler.AddNewPolicies | app/scheduler.py:137-143 | after the add loop, in whatever order it runs, the active set is the old one plus the new identifiers that qualify |
| Scheduler.RemoveStalePolicies | app/scheduler.py:145-149 | after the remove loop, in whatever order it runs, the active set is the old one minus the removed identifiers |
| Scheduler.Reconciled | app/scheduler.py:127-149 | the active set after a cycle lies within the desired set, keeps the desired ids that were active, and adds exactly the qualifying desired ids that were not |
| Scheduler.MonitorCycle | app/scheduler.py:122-149 | after one cycle, every desired id that qualifies is active and no active id lies outside the desired set; the registry is the one of the reconciled set |
| Scheduler.ReconcileIdempotent | app/scheduler.py:127-149 | a second cycle on an unchanged store changes nothing |
| Scheduler.PolicyBeyondWindowInactive | app/scheduler.py:124-135 | a policy with no configuration among the first 100 is never desired, so it is never added and is removed if present |
| Scheduler.ShadowedScheduledConfigStaysInactive | app/scheduler.py:139-143 | a cycle does not add a desired id whose first configuration is ONE_TIME |
| Scheduler.LoadedScheduledPolicyStaysActive | app/scheduler.py:171-176 | an enabled policy with a SCHEDULED configuration with a valid cron in the window has a job after the load pass, whatever its first configuration, and the next cycle keeps it |
| Scheduler.FreshCycleMatchesDesiredState | app/scheduler.py:130-143 | with distinct identifiers and at most 100 configurations, a cycle from an empty registry activates exactly the enabled policies whose configuration is SCHEDULED with a valid cron |
| Scheduler.LastScheduled | app/scheduler.py:171-176 | a SCHEDULED configuration of the policy in the list with no such configuration after it, or none exactly when the list has none |
| Scheduler.LoadPass | app/scheduler.py:171-176 | the count is the number of configurations whose policy is enabled and whose add succeeds (ONE_TIME included); it is at most the list length; the invariant is preserved |
| Scheduler.LoadPassDecides | app/scheduler.py:171-176 | for an enabled policy, its last SCHEDULED configuration decides whether it ends with a job; other policies keep their state |
| Scheduler.LoadAllPolicies | app/scheduler.py:164-180 | the load over the listing window counts at most 100 configurations and keeps the invariant |
| Scheduler.LoadPassOneTime | app/scheduler.py:171-176 | when every configuration in the list is ONE_TIME of an enabled policy, all are counted and the registry is unchanged |
| Scheduler.LoadPassKeepsUnscheduled | app/scheduler.py:171-176 | for any list, a policy with no SCHEDULED configuration in it keeps its registry membership through the load pass |
| Scheduler.LoadCountsOneTimeConfigs | app/scheduler.py:168-176 | when every configuration in the window is ONE_TIME of an enabled policy, the start-up load counts them all and leaves the registry unchanged |
| Scheduler.LoadMatchesFreshCycle | app/scheduler.py:164-176 | with distinct identifiers and at most 100 configurations, loading into an empty registry gives the same registry as one cycle from an empty registry |

## Left out

- Thread and lifecycle handling is not modelled. This covers `start`, `stop`, `is_running`, the monitor thread with its 30-second wait and 10-second error backoff, and the `threading.Lock`. These are concurrency and timing, and the lock is never acquired. One cycle of the loop is modelled.
- Cron semantics and firing times are not modelled: the cron engine is foreign code. Validity is the parameter `validCron`, and the engine is the set of job identifiers it holds.
- Exceptions raised by store reads are not modelled. This covers a store that is unreachable during a cycle, a firing or a generation call. The store is an in-memory value that always answers. Query failures and per-row commit failures are modelled.
- A failure of the cron engine's own `add_job` is not modelled. Only a cron parse failure makes an add fail.
- Sessions, commits and refreshes are not modelled. Each operation is one state transition. A commit failure is the `failAt` parameter, and it covers the generation loop only.
- Table order is a modelling assumption. None of the listing and lookup queries has an ORDER BY, so the database promises no order for `.first()` or for offset and limit. The separate queries of one cycle need not agree. The model reads every table in insertion order. This choice decides which configuration is "first" and which 100 form the listing window. ShadowedScheduledConfigStaysInactive, PolicyBeyondWindowInactive, LoadPassDecides and LoadMatchesFreshCycle rest on it.
- HandleOneTimeTaskGeneration: consuming never fails in the model. In the code, a commit failure inside the consume loop raises out of the call after only some pending tasks are consumed. The remaining tasks stay pending and no count is returned.
- Timestamps, the task source table and its operations, and the creation of policy records and generation configurations are left out. The pipeline does not use them.
- Logging is not modelled. A log call is a no-op.
- The HTTP layer, the startup wiring, configuration parsing and database setup are left out. They are plumbing around the core.
- Paging arguments are natural numbers. Negative offsets or limits would be rejected by the database and are not modelled.
- MonitorCycle: requires the registry invariant. Every registry the scheduler holds satisfies it, since it holds initially and every add and remove preserves it. Without it, removals could interfere through shared job identifiers.
- LoadPassDecides: requires the registry invariant, for the same reason.
- GetPendingSeedTasks: states which tasks are returned and how often, but not their table order.
- GetOneTimeTasks: the same; order does not matter to the consume loop that reads it.
- ConsumeAll: its exact effect is stated only for unique task identities, which the primary key guarantees. Without that assumption it states only that flags become true, and only on listed identities.
- OneTimeConsumesAllPending: requires a well-formed store (unique task identities), which the primary key guarantees.

=== FILE: crud.dfy ===
/**
 The persistence operations the pipeline uses, over the in-memory tables:
 first-match lookups, offset/limit listings, the enablement update, the
 pending-task filter, seed task creation and the consume mark.
 */
module Crud {
  import opened Wrappers
  import opened Models

  /** The listing limit used when the caller gives none. */
  const DefaultLimit: nat := 100

  /** Index of the first element satisfying `p`, or None. */
  function FirstIndex<T>(xs: seq<T>, p: T -> bool): (r: Option<nat>)
    ensures r.Some? ==> r.value < |xs| && p(xs[r.value])
    ensures r.Some? ==> forall j :: 0 <= j < r.value ==> !p(xs[j])
    ensures r.None? ==> forall j :: 0 <= j < |xs| ==> !p(xs[j])
  {
    if xs == [] then None
    else if p(xs[0]) then Some(0)
    else match FirstIndex(xs[1..], p)
      case None => None
      case Some(i) => Some(i + 1)
  }

  /** OFFSET `skip` LIMIT `limit` over a table in table order. */
  function Page<T>(table: seq<T>, skip: nat, limit: nat): (r: seq<T>)
    ensures |r| == if skip >= |table| then 0 else if limit < |table| - skip then limit else |table| - skip
    ensures forall i :: 0 <= i < |r| ==> r[i] == table[skip + i]
  {
    if skip >= |table| then []
    else if limit < |table| - skip then table[skip..skip + limit]
    else table[skip..]
  }

  function GetPolicyConfigs(s: Store, skip: nat, limit: nat): (r: seq<PolicyConfig>)
    ensures |r| == if skip >= |s.policies| then 0 else if limit < |s.policies| - skip then limit else |s.policies| - skip
    ensures forall i :: 0 <= i < |r| ==> skip + i < |s.policies| && r[i] == s.policies[skip + i]
  {
    Page(s.policies, skip, limit)
  }

  function GetPolicyTaskGenConfigs(s: Store, skip: nat, limit: nat): (r: seq<PolicyTaskGenConfig>)
    ensures |r| == if skip >= |s.genConfigs| then 0 else if limit < |s.genConfigs| - skip then limit else |s.genConfigs| - skip
    ensures forall i :: 0 <= i < |r| ==> skip + i < |s.genConfigs| && r[i] == s.genConfigs[skip + i]
  {
    Page(s.genConfigs, skip, limit)
  }

  function GetSeedTasks(s: Store, skip: nat, limit: nat): (r: seq<SeedTask>)
    ensures |r| == if skip >= |s.seedTasks| then 0 else if limit < |s.seedTasks| - skip then limit else |s.seedTasks| - skip
    ensures forall i :: 0 <= i < |r| ==> skip + i < |s.seedTasks| && r[i] == s.seedTasks[skip + i]
  {
    Page(s.seedTasks, skip, limit)
  }

  /** The generation configurations a caller sees without paging arguments:
      the first `DefaultLimit` rows. */
  function Window(s: Store): (r: seq<PolicyTaskGenConfig>)
    ensures |r| == if |s.genConfigs| < DefaultLimit then |s.genConfigs| else DefaultLimit
    ensures r == s.genConfigs[..|r|]
  {
    GetPolicyTaskGenConfigs(s, 0, DefaultLimit)
  }

  /** The first policy record with the given identifier, or None. */
  function GetPolicyConfig(s: Store, policyId: string): (r: Option<PolicyConfig>)
    ensures r.Some? ==> r.value.policyId == policyId
    ensures r.Some? ==> exists i :: 0 <= i < |s.policies| && s.policies[i] == r.value
                                  && forall j :: 0 <= j < i ==> s.policies[j].policyId != policyId
    ensures r.None? <==> forall i :: 0 <= i < |s.policies| ==> s.policies[i].policyId != policyId
  {
    match FirstIndex(s.policies, (c: PolicyConfig) => c.policyId == policyId)
    case None => None
    case Some(i) => Some(s.policies[i])
  }

  /** The first generation configuration with the given identifier, or None. */
  function GetPolicyTaskGenConfig(s: Store, policyId: string): (r: Option<PolicyTaskGenConfig>)
    ensures r.Some? ==> r.value.policyId == policyId
    ensures r.Some? ==> exists i :: 0 <= i < |s.genConfigs| && s.genConfigs[i] == r.value
                                  && forall j :: 0 <= j < i ==> s.genConfigs[j].policyId != policyId
    ensures r.None? <==> forall i :: 0 <= i < |s.genConfigs| ==> s.genConfigs[i].policyId != policyId
  {
    match FirstIndex(s.genConfigs, (c: PolicyTaskGenConfig) => c.policyId == policyId)
    case None => None
    case Some(i) => Some(s.genConfigs[i])
  }

  /** The enablement check the pipeline repeats before acting on a policy:
      a record exists and is enabled. */
  predicate IsEnabled(s: Store, policyId: string) {
    match GetPolicyConfig(s, policyId)
    case None => false
    case Some(p) => p.isEnabled
  }

  /** Under the uniqueness constraint, the lookup finds THE record of that identifier. */
  lemma UniquePolicyLookup(s: Store, i: int)
    requires UniquePolicyIds(s.policies)
    requires 0 <= i < |s.policies|
    ensures GetPolicyConfig(s, s.policies[i].policyId) == Some(s.policies[i])
  {
    var r := GetPolicyConfig(s, s.policies[i].policyId);
    var k :| 0 <= k < |s.policies| && s.policies[k] == r.value
             && forall j :: 0 <= j < k ==> s.policies[j].policyId != s.policies[i].policyId;
    assert k == i;
  }

  /** Identifiers may repeat: the lookup answers with the earliest configuration. */
  lemma FirstGenConfigLookup(s: Store, i: int)
    requires 0 <= i < |s.genConfigs|
    requires forall j :: 0 <= j < i ==> s.genConfigs[j].policyId != s.genConfigs[i].policyId
    ensures GetPolicyTaskGenConfig(s, s.genConfigs[i].policyId) == Some(s.genConfigs[i])
  {
    var r := GetPolicyTaskGenConfig(s, s.genConfigs[i].policyId);
    var k :| 0 <= k < |s.genConfigs| && s.genConfigs[k] == r.value
             && forall j :: 0 <= j < k ==> s.genConfigs[j].policyId != s.genConfigs[i].policyId;
    assert k == i;
  }

  /**
   The "enabled configurations" listing returns every generation
   configuration, whatever the enablement of its policy.
   */
  function GetEnabledPolicyConfigs(s: Store): (r: seq<PolicyTaskGenConfig>)
    ensures forall c :: c in s.genConfigs <==> c in r
    ensures multiset(r) == multiset(s.genConfigs)
  {
    s.genConfigs
  }

  /** A configuration whose policy is disabled is still listed as "enabled". */
  lemma EnabledListingIgnoresEnablement(s: Store, c: PolicyTaskGenConfig)
    requires c in s.genConfigs
    requires GetPolicyConfig(s, c.policyId).Some? && !GetPolicyConfig(s, c.policyId).value.isEnabled
    ensures c in GetEnabledPolicyConfigs(s)
  {
  }

  /**
   Sets the enablement of the first record with the identifier and returns
   the refreshed record; with no such record the store is unchanged and
   the answer is None.
   */
  function UpdatePolicyConfigStatus(s: Store, policyId: string, isEnabled: bool): (r: (Store, Option<PolicyConfig>))
    ensures r.1.None? <==> GetPolicyConfig(s, policyId).None?
    ensures r.1.None? ==> r.0 == s
    ensures r.1.Some? ==> r.1.value == GetPolicyConfig(s, policyId).value.(isEnabled := isEnabled)
    ensures GetPolicyConfig(r.0, policyId) == r.1
    ensures |r.0.policies| == |s.policies|
    ensures forall i :: 0 <= i < |s.policies| ==>
              r.0.policies[i] == s.policies[i] || r.0.policies[i] == s.policies[i].(isEnabled := isEnabled)
    ensures forall i :: 0 <= i < |s.policies| && s.policies[i].policyId != policyId ==>
              r.0.policies[i] == s.policies[i]
    ensures r.0.genConfigs == s.genConfigs && r.0.seedTasks == s.seedTasks && r.0.nextTaskId == s.nextTaskId
  {
    match FirstIndex(s.policies, (c: PolicyConfig) => c.policyId == policyId)
    case None => (s, None)
    case Some(i) =>
      var updated := s.policies[i].(isEnabled := isEnabled);
      var s' := s.(policies := s.policies[i := updated]);
      assert FirstIndex(s'.policies, (c: PolicyConfig) => c.policyId == policyId) == Some(i) by {
        FirstIndexStable(s.policies, s'.policies, (c: PolicyConfig) => c.policyId == policyId, i);
      }
      (s', Some(updated))
  }

  /** Replacing elements without changing which satisfy `p` keeps the first match. */
  lemma FirstIndexStable<T>(xs: seq<T>, ys: seq<T>, p: T -> bool, i: nat)
    requires |xs| == |ys|
    requires forall j :: 0 <= j < |xs| ==> p(xs[j]) == p(ys[j])
    requires FirstIndex(xs, p) == Some(i)
    ensures FirstIndex(ys, p) == Some(i)
  {
    assert p(ys[i]);
    assert forall j :: 0 <= j < i ==> !p(ys[j]) by {
      forall j | 0 <= j < i ensures !p(ys[j]) {
        assert p(xs[j]) == p(ys[j]);
      }
    }
  }

  /** A task the pending filter selects: unconsumed, and of the policy when one is named. */
  predicate PendingFor(t: SeedTask, policyId: Option<string>) {
    !t.isConsumed && (policyId.Some? && policyId.value != "" ==> t.policyId == policyId.value)
  }

  /**
   The unconsumed tasks, restricted to `policyId` when it is given and
   non-empty; None or "" selects pending tasks of every policy. Each
   selected task appears as often as the table holds it.
   */
  function GetPendingSeedTasks(s: Store, policyId: Option<string>): (r: seq<SeedTask>)
    ensures forall t :: t in r <==>
              t in s.seedTasks && !t.isConsumed
              && (policyId.Some? && policyId.value != "" ==> t.policyId == policyId.value)
    ensures forall t :: multiset(r)[t] == if PendingFor(t, policyId) then multiset(s.seedTasks)[t] else 0
    ensures |r| <= |s.seedTasks|
  {
    PendingAmong(s.seedTasks, policyId)
  }

  function PendingAmong(ts: seq<SeedTask>, policyId: Option<string>): (r: seq<SeedTask>)
    ensures forall t :: t in r <==>
              t in ts && !t.isConsumed
              && (policyId.Some? && policyId.value != "" ==> t.policyId == policyId.value)
    ensures forall t :: multiset(r)[t] == if PendingFor(t, policyId) then multiset(ts)[t] else 0
    ensures |r| <= |ts|
  {
    if ts == [] then []
    else
      var rest := PendingAmong(ts[1..], policyId);
      var t := ts[0];
      assert ts == [t] + ts[1..];
      assert multiset(ts) == multiset([t]) + multiset(ts[1..]);
      if !t.isConsumed && (policyId.None? || policyId.value == "" || t.policyId == policyId.value)
      then [t] + rest
      else rest
  }

  /**
   Persists a new task for the given policy, kind and parameters under the
   next identity and returns it as stored.
   */
  function CreateSeedTask(s: Store, policyId: string, taskType: TaskType, params: Row): (r: (Store, SeedTask))
    ensures r.0.seedTasks == s.seedTasks + [r.1]
    ensures r.1.id == s.nextTaskId && r.0.nextTaskId == s.nextTaskId + 1
    ensures r.1.policyId == policyId && r.1.taskType == taskType && r.1.taskParams == params
    ensures !r.1.isConsumed
    ensures r.0.policies == s.policies && r.0.genConfigs == s.genConfigs
    ensures WellFormed(s) ==> WellFormed(r.0)
  {
    var t := NewSeedTask(s.nextTaskId, policyId, taskType, params);
    (s.(seedTasks := s.seedTasks + [t], nextTaskId := s.nextTaskId + 1), t)
  }

  /**
   Sets the consumed flag of the first task with identity `taskId` and
   returns it; with no such task the store is unchanged and the answer is None.
   */
  function MarkSeedTaskConsumed(s: Store, taskId: int): (r: (Store, Option<SeedTask>))
    ensures r.1.None? <==> forall i :: 0 <= i < |s.seedTasks| ==> s.seedTasks[i].id != taskId
    ensures r.1.None? ==> r.0 == s
    ensures r.1.Some? ==> r.1.value.id == taskId && r.1.value.isConsumed && r.1.value in r.0.seedTasks
    ensures |r.0.seedTasks| == |s.seedTasks|
    ensures forall i :: 0 <= i < |s.seedTasks| ==>
              r.0.seedTasks[i] == s.seedTasks[i]
              || (s.seedTasks[i].id == taskId && r.0.seedTasks[i] == s.seedTasks[i].(isConsumed := true))
    ensures UniqueTaskIds(s.seedTasks) ==> forall i :: 0 <= i < |s.seedTasks| ==>
              r.0.seedTasks[i] == if s.seedTasks[i].id == taskId then s.seedTasks[i].(isConsumed := true) else s.seedTasks[i]
    ensures r.0.policies == s.policies && r.0.genConfigs == s.genConfigs && r.0.nextTaskId == s.nextTaskId
    ensures WellFormed(s) ==> WellFormed(r.0)
  {
    match FirstIndex(s.seedTasks, (t: SeedTask) => t.id == taskId)
    case None => (s, None)
    case Some(i) =>
      var t := s.seedTasks[i].(isConsumed := true);
      var s' := s.(seedTasks := s.seedTasks[i := t]);
      assert s'.seedTasks[i] == t;
      (s', Some(t))
  }

  /** The consumed flag never goes back to false. */
  lemma MarkNeverClears(s: Store, taskId: int, i: int)
    requires 0 <= i < |s.seedTasks| && s.seedTasks[i].isConsumed
    ensures MarkSeedTaskConsumed(s, taskId).0.seedTasks[i].isConsumed
  {
  }

  /** Marking the same task twice is the same as marking it once. */
  lemma MarkIdempotent(s: Store, taskId: int)
    ensures MarkSeedTaskConsumed(MarkSeedTaskConsumed(s, taskId).0, taskId).0 == MarkSeedTaskConsumed(s, taskId).0
  {
    var s1 := MarkSeedTaskConsumed(s, taskId).0;
    var s2 := MarkSeedTaskConsumed(s1, taskId).0;
    match FirstIndex(s.seedTasks, (t: SeedTask) => t.id == taskId)
    case None =>
    case Some(i) =>
      FirstIndexStable(s.seedTasks, s1.seedTasks, (t: SeedTask) => t.id == taskId, i);
      assert s2.seedTasks == s1.seedTasks;
  }
}

=== FILE: models.dfy ===
/**
 The persisted records of the task generator: the task kind enumeration,
 policy master records, task-generation configurations and seed tasks,
 together with the in-memory store that holds the three tables in row order.
 */
module Models {
  import opened Wrappers

  /** The two kinds of generation; `Value` is the `.value` string of each member,
      the string the scheduler compares against. */
  datatype TaskType = Scheduled | OneTime

  function Value(t: TaskType): string {
    match t
    case Scheduled => "scheduled"
    case OneTime => "one_time"
  }

  /** Maps a `.value` string back to its member of the enumeration. */
  function ParseTaskType(s: string): (r: Option<TaskType>)
    ensures r.Some? ==> Value(r.value) == s
    ensures r.None? ==> forall t: TaskType :: Value(t) != s
  {
    if s == "scheduled" then Some(Scheduled)
    else if s == "one_time" then Some(OneTime)
    else None
  }

  /** Every kind survives the trip through its `.value` string. */
  lemma ParseValueRoundTrip(t: TaskType)
    ensures ParseTaskType(Value(t)) == Some(t)
  {
  }

  /** A policy's master record; `policyId` is a unique column. */
  datatype PolicyConfig = PolicyConfig(
    id: int,
    policyId: string,
    dataSourceType: string,
    isEnabled: bool)

  /** A policy's generation configuration; `policyId` is NOT unique. */
  datatype PolicyTaskGenConfig = PolicyTaskGenConfig(
    id: int,
    policyId: string,
    taskGenSql: string,
    cronExpression: string,
    taskType: TaskType)

  /** A scalar value of a query result or of a stored task parameter. */
  datatype Scalar = Null | Bool(b: bool) | Int(i: int) | Text(s: string)

  /** One normalised result row: column name to scalar. */
  type Row = map<string, Scalar>

  /**
   A generated unit of work. `taskParams` is a plain (non-optional) field,
   matching the non-null parameter column.
   */
  datatype SeedTask = SeedTask(
    id: int,
    policyId: string,
    taskType: TaskType,
    taskParams: Row,
    isConsumed: bool)

  /** The three tables, each in table (insertion) order, and the next
      identity the seed task table will assign. */
  datatype Store = Store(
    policies: seq<PolicyConfig>,
    genConfigs: seq<PolicyTaskGenConfig>,
    seedTasks: seq<SeedTask>,
    nextTaskId: int)

  /** A policy record as created without an explicit enablement: enabled. */
  function NewPolicyConfig(id: int, policyId: string, dataSourceType: string): (r: PolicyConfig)
    ensures r.isEnabled
    ensures r.policyId == policyId && r.dataSourceType == dataSourceType && r.id == id
  {
    PolicyConfig(id, policyId, dataSourceType, true)
  }

  /** A seed task as first persisted with identity `id`: not yet consumed. */
  function NewSeedTask(id: int, policyId: string, taskType: TaskType, params: Row): (r: SeedTask)
    ensures !r.isConsumed
    ensures r.id == id && r.policyId == policyId && r.taskType == taskType && r.taskParams == params
  {
    SeedTask(id, policyId, taskType, params, false)
  }

  /** The uniqueness constraint on the policy record table. */
  ghost predicate UniquePolicyIds(ps: seq<PolicyConfig>) {
    forall i, j :: 0 <= i < j < |ps| ==> ps[i].policyId != ps[j].policyId
  }

  /** The primary key of the seed task table. */
  ghost predicate UniqueTaskIds(ts: seq<SeedTask>) {
    forall i, j :: 0 <= i < j < |ts| ==> ts[i].id != ts[j].id
  }

  /** Generation configuration identifiers are distinct (as the creation
      endpoint ensures; the table itself does not). */
  ghost predicate UniqueGenConfigIds(s: Store) {
    forall i, j :: 0 <= i < j < |s.genConfigs| ==> s.genConfigs[i].policyId != s.genConfigs[j].policyId
  }

  /** Every stored identity lies below the next one to be assigned. */
  ghost predicate TaskIdsBelow(ts: seq<SeedTask>, next: int) {
    forall i :: 0 <= i < |ts| ==> ts[i].id < next
  }

  /** The constraints the database enforces on the stored tables. */
  ghost predicate WellFormed(s: Store) {
    && UniquePolicyIds(s.policies)
    && UniqueTaskIds(s.seedTasks)
    && TaskIdsBelow(s.seedTasks, s.nextTaskId)
  }

  /** At most one policy record exists per identifier. */
  lemma AtMostOnePolicyRecord(s: Store, i: int, j: int)
    requires WellFormed(s)
    requires 0 <= i < |s.policies| && 0 <= j < |s.policies|
    requires s.policies[i].policyId == s.policies[j].policyId
    ensures i == j
  {
  }

  /**
   The store's constraints say nothing about generation configurations:
   replacing them, for instance by several configurations sharing one
   policy identifier, never changes well-formedness.
   */
  lemma WellFormedIgnoresGenConfigs(s: Store, gs: seq<PolicyTaskGenConfig>)
    ensures WellFormed(s.(genConfigs := gs)) <==> WellFormed(s)
  {
  }
}

=== FILE: registry.dfy ===
/**
 The job registry of the scheduler: a map from policy identifier to job
 identifier, and the set of job identifiers the cron engine holds. Cron
 parsing is the parameter `validCron`; the engine's firing times are not
 modelled.
 */
module JobRegistry {
  import opened Models

  datatype Registry = Registry(jobs: map<string, string>, engine: set<string>)

  /** The job identifier used for a policy's job. */
  function JobId(policyId: string): string {
    "policy_" + policyId
  }

  /** Distinct policies never share a job identifier. */
  lemma JobIdInjective(p: string, q: string)
    requires JobId(p) == JobId(q)
    ensures p == q
  {
    assert p == JobId(p)[7..];
    assert q == JobId(q)[7..];
  }

  /** The job identifiers of a set of policies. */
  function JobIds(ps: set<string>): set<string> {
    set p | p in ps :: JobId(p)
  }

  /** Each policy contributes its own job identifier, so sizes agree. */
  lemma {:induction false} JobIdsSize(ps: set<string>)
    ensures |JobIds(ps)| == |ps|
    decreases ps
  {
    if ps != {} {
      var p :| p in ps;
      var rest := ps - {p};
      JobIdsSize(rest);
      assert JobIds(ps) == JobIds(rest) + {JobId(p)};
      if JobId(p) in JobIds(rest) {
        var q :| q in rest && JobId(q) == JobId(p);
        JobIdInjective(p, q);
      }
    }
  }

  /**
   The registry invariant: every entry maps a policy to its own job
   identifier, and the engine holds exactly the jobs of the entries.
   */
  ghost predicate Inv(reg: Registry) {
    && (forall p :: p in reg.jobs ==> reg.jobs[p] == JobId(p))
    && reg.engine == JobIds(reg.jobs.Keys)
  }

  /** The registry whose active policies are exactly `ps`. */
  function RegistryOf(ps: set<string>): (r: Registry)
    ensures Inv(r) && r.jobs.Keys == ps
  {
    Registry(map p | p in ps :: JobId(p), JobIds(ps))
  }

  /** An invariant registry is determined by its active policies. */
  lemma InvIsRegistryOf(reg: Registry)
    requires Inv(reg)
    ensures reg == RegistryOf(reg.jobs.Keys)
  {
    assert reg.jobs == RegistryOf(reg.jobs.Keys).jobs;
  }

  /** The registry a new scheduler starts with. */
  function Empty(): (r: Registry)
    ensures Inv(r) && r.jobs.Keys == {} && r.engine == {}
  {
    RegistryOf({})
  }

  /**
   Removes a policy's job. The entry goes only when its job identifier is
   non-empty and the engine still holds that job; otherwise nothing changes.
   */
  function RemovePolicyJob(reg: Registry, policyId: string): (r: Registry)
    ensures policyId !in reg.jobs ==> r == reg
    ensures policyId in reg.jobs && reg.jobs[policyId] != "" && reg.jobs[policyId] in reg.engine ==>
              r.jobs == reg.jobs - {policyId} && r.engine == reg.engine - {reg.jobs[policyId]}
    ensures policyId in reg.jobs && (reg.jobs[policyId] == "" || reg.jobs[policyId] !in reg.engine) ==> r == reg
    ensures Inv(reg) ==> Inv(r) && policyId !in r.jobs
  {
    if policyId in reg.jobs && reg.jobs[policyId] != "" && reg.jobs[policyId] in reg.engine then
      var r := Registry(reg.jobs - {policyId}, reg.engine - {reg.jobs[policyId]});
      assert Inv(reg) ==> r.engine == JobIds(r.jobs.Keys) by {
        if Inv(reg) {
          forall j | j in r.engine ensures j in JobIds(r.jobs.Keys) {
            var q :| q in reg.jobs.Keys && JobId(q) == j;
            assert q != policyId;
          }
          forall q | q in r.jobs.Keys ensures JobId(q) in r.engine {
            if JobId(q) == JobId(policyId) {
              JobIdInjective(q, policyId);
            }
          }
        }
      }
      r
    else reg
  }

  /** On an invariant registry, removal takes exactly that policy out. */
  lemma RemoveFromRegistryOf(ps: set<string>, policyId: string)
    ensures RemovePolicyJob(RegistryOf(ps), policyId) == RegistryOf(ps - {policyId})
  {
    var r := RemovePolicyJob(RegistryOf(ps), policyId);
    InvIsRegistryOf(r);
  }

  /**
   Registers a policy's job. A one-time configuration registers nothing and
   succeeds. Otherwise any existing job is removed first, and then an
   invalid cron expression fails, leaving the policy without a job; a valid
   one maps the policy to its job identifier and gives the job to the engine.
   */
  function AddPolicyJob(reg: Registry, c: PolicyTaskGenConfig, validCron: string -> bool): (r: (Registry, bool))
    ensures r.1 <==> c.taskType == OneTime || validCron(c.cronExpression)
    ensures c.taskType == OneTime ==> r.0 == reg
    ensures c.taskType == Scheduled && validCron(c.cronExpression) ==>
              c.policyId in r.0.jobs && r.0.jobs[c.policyId] == JobId(c.policyId)
              && JobId(c.policyId) in r.0.engine && |r.0.jobs| <= |reg.jobs| + 1
    ensures c.taskType == Scheduled && !validCron(c.cronExpression) ==> r.0 == RemovePolicyJob(reg, c.policyId)
    ensures forall q :: q != c.policyId ==>
              (q in r.0.jobs <==> q in reg.jobs) && (q in r.0.jobs ==> r.0.jobs[q] == reg.jobs[q])
    ensures Inv(reg) ==> Inv(r.0)
    ensures Inv(reg) && c.taskType == Scheduled && !validCron(c.cronExpression) ==> c.policyId !in r.0.jobs
  {
    if Value(c.taskType) == "one_time" then (reg, true)
    else
      var removed := RemovePolicyJob(reg, c.policyId);
      var jobId := JobId(c.policyId);
      if !validCron(c.cronExpression) then (removed, false)
      else
        var r := Registry(removed.jobs[c.policyId := jobId], removed.engine + {jobId});
        assert r.jobs.Keys == removed.jobs.Keys + {c.policyId};
        assert removed.jobs.Keys <= reg.jobs.Keys;
        assert |r.jobs.Keys| <= |removed.jobs.Keys| + 1;
        assert |removed.jobs.Keys| <= |reg.jobs.Keys| by {
          SubsetSize(removed.jobs.Keys, reg.jobs.Keys);
        }
        assert Inv(reg) ==> r.engine == JobIds(r.jobs.Keys) by {
          if Inv(reg) {
            assert JobIds(r.jobs.Keys) == JobIds(removed.jobs.Keys) + {jobId};
          }
        }
        (r, true)
  }

  lemma SubsetSize<T>(a: set<T>, b: set<T>)
    requires a <= b
    ensures |a| <= |b|
  {
    assert b == a + (b - a);
  }

  /** On an invariant registry, a successful scheduled add activates exactly
      that policy and a failed one deactivates it. */
  lemma AddToRegistryOf(ps: set<string>, c: PolicyTaskGenConfig, validCron: string -> bool)
    requires c.taskType == Scheduled
    ensures validCron(c.cronExpression) ==> AddPolicyJob(RegistryOf(ps), c, validCron).0 == RegistryOf(ps + {c.policyId})
    ensures !validCron(c.cronExpression) ==> AddPolicyJob(RegistryOf(ps), c, validCron).0 == RegistryOf(ps - {c.policyId})
  {
    var r := AddPolicyJob(RegistryOf(ps), c, validCron).0;
    InvIsRegistryOf(r);
    if validCron(c.cronExpression) {
      assert r.jobs.Keys == ps + {c.policyId};
    } else {
      assert r.jobs.Keys == ps - {c.policyId};
    }
  }

  /** Registering the same configuration twice equals registering it once. */
  lemma AddPolicyJobIdempotent(reg: Registry, c: PolicyTaskGenConfig, validCron: string -> bool)
    requires Inv(reg)
    ensures AddPolicyJob(AddPolicyJob(reg, c, validCron).0, c, validCron) == AddPolicyJob(reg, c, validCron)
  {
    if c.taskType == Scheduled {
      InvIsRegistryOf(reg);
      var ps := reg.jobs.Keys;
      AddToRegistryOf(ps, c, validCron);
      if validCron(c.cronExpression) {
        AddToRegistryOf(ps + {c.policyId}, c, validCron);
        assert ps + {c.policyId} + {c.policyId} == ps + {c.policyId};
      } else {
        AddToRegistryOf(ps - {c.policyId}, c, validCron);
        assert ps - {c.policyId} - {c.policyId} == ps - {c.policyId};
      }
    }
  }

  /** The number of jobs the engine holds. */
  function GetJobCount(reg: Registry): int {
    |reg.engine|
  }

  /** The policies with a registered job. */
  function GetActivePolicies(reg: Registry): set<string> {
    reg.jobs.Keys
  }

  /** On an invariant registry the job count is the number of active policies. */
  lemma JobCountMatchesActivePolicies(reg: Registry)
    requires Inv(reg)
    ensures GetJobCount(reg) == |GetActivePolicies(reg)|
  {
    JobIdsSize(reg.jobs.Keys);
  }

  /**
   A successful scheduled add raises the job count by one for a new policy
   and leaves it unchanged for a policy already registered.
   */
  lemma AddPolicyJobCount(reg: Registry, c: PolicyTaskGenConfig, validCron: string -> bool)
    requires Inv(reg) && c.taskType == Scheduled && validCron(c.cronExpression)
    ensures GetJobCount(AddPolicyJob(reg, c, validCron).0)
            == GetJobCount(reg) + (if c.policyId in reg.jobs then 0 else 1)
  {
    InvIsRegistryOf(reg);
    AddToRegistryOf(reg.jobs.Keys, c, validCron);
    var r := RegistryOf(reg.jobs.Keys + {c.policyId});
    JobCountMatchesActivePolicies(reg);
    JobCountMatchesActivePolicies(r);
  }
}

=== FILE: scheduler.dfy ===
/**
 The scheduler's passes over the store: the gate a cron firing goes
 through, one cycle of the reconciliation loop, and the add-only load pass.
 Threads, sleeping and the cron engine's clock are not modelled.
 */
module Scheduler {
  import opened Wrappers
  import opened Models
  import opened Crud
  import opened Services
  import opened JobRegistry

  /**
   What one cron firing for `policyId` does to the store: generation runs
   only when a configuration exists, its policy record exists and is
   enabled, and the configuration's kind is scheduled.
   */
  function ExecutePolicy(s: Store, policyId: string, run: string -> QueryOutcome, failAt: Option<nat>): (r: Store)
    ensures GetPolicyTaskGenConfig(s, policyId).None? ==> r == s
    ensures !IsEnabled(s, policyId) ==> r == s
    ensures GetPolicyTaskGenConfig(s, policyId).Some? && GetPolicyTaskGenConfig(s, policyId).value.taskType == OneTime ==> r == s
    ensures GetPolicyTaskGenConfig(s, policyId).Some? && IsEnabled(s, policyId)
            && GetPolicyTaskGenConfig(s, policyId).value.taskType == Scheduled ==>
              r == GenerateSeedTasks(s, GetPolicyTaskGenConfig(s, policyId).value, run, failAt).0
  {
    match GetPolicyTaskGenConfig(s, policyId)
    case None => s
    case Some(c) =>
      if !IsEnabled(s, policyId) then s
      else if Value(c.taskType) == "scheduled" then GenerateSeedTasks(s, c, run, failAt).0
      else s
  }

  /**
   A firing only appends unconsumed scheduled tasks of its own policy; no
   stored task changes.
   */
  lemma ExecuteAddsOnlyOwnScheduledTasks(s: Store, policyId: string, run: string -> QueryOutcome, failAt: Option<nat>)
    ensures var r := ExecutePolicy(s, policyId, run, failAt);
            && |s.seedTasks| <= |r.seedTasks|
            && r.seedTasks[..|s.seedTasks|] == s.seedTasks
            && forall k :: |s.seedTasks| <= k < |r.seedTasks| ==>
                 r.seedTasks[k].policyId == policyId && r.seedTasks[k].taskType == Scheduled && !r.seedTasks[k].isConsumed
  {
    match GetPolicyTaskGenConfig(s, policyId)
    case None =>
    case Some(c) =>
      if IsEnabled(s, policyId) && c.taskType == Scheduled {
        assert ExecutePolicy(s, policyId, run, failAt) == GenerateSeedTasks(s, c, run, failAt).0;
        GenerateAppendsOwnTasks(s, c, run, failAt);
      }
  }

  /** The identifiers that should have a job according to the configurations `cs`:
      enabled policies with a scheduled configuration. */
  function DesiredAmong(s: Store, cs: seq<PolicyTaskGenConfig>): set<string> {
    set c | c in cs && IsEnabled(s, c.policyId) && c.taskType == Scheduled :: c.policyId
  }

  /** The desired identifiers of a cycle, computed from the listing window only. */
  function Desired(s: Store): set<string> {
    DesiredAmong(s, Window(s))
  }

  /** Whether adding `policyId` registers a job: the first configuration
      found for it is scheduled and its cron expression parses. */
  predicate Qualifies(s: Store, policyId: string, validCron: string -> bool) {
    match GetPolicyTaskGenConfig(s, policyId)
    case None => false
    case Some(c) => c.taskType == Scheduled && validCron(c.cronExpression)
  }

  function Admitted(s: Store, ps: set<string>, validCron: string -> bool): set<string> {
    set p | p in ps && Qualifies(s, p, validCron)
  }

  /**
   The active set after one cycle from active set `ps`: desired
   identifiers already active stay, desired ones that were not active join
   when they qualify, and everything not desired goes.
   */
  function Reconciled(s: Store, ps: set<string>, validCron: string -> bool): (r: set<string>)
    ensures r <= Desired(s)
    ensures forall p :: p in Desired(s) && Qualifies(s, p, validCron) ==> p in r
    ensures forall p :: p in ps && p in Desired(s) ==> p in r
    ensures forall p :: p in r && p !in ps ==> Qualifies(s, p, validCron)
  {
    (ps * Desired(s)) + Admitted(s, Desired(s) - ps, validCron)
  }

  /** The desired set computed the way the cycle does, one configuration at a time. */
  method ComputeDesired(s: Store, window: seq<PolicyTaskGenConfig>) returns (desired: set<string>)
    ensures desired == DesiredAmong(s, window)
  {
    desired := {};
    for i := 0 to |window|
      invariant desired == DesiredAmong(s, window[..i])
    {
      var c := window[i];
      assert window[..i + 1] == window[..i] + [c];
      var enabled := match GetPolicyConfig(s, c.policyId) case None => false case Some(p) => p.isEnabled;
      if enabled && Value(c.taskType) == "scheduled" {
        desired := desired + {c.policyId};
      }
    }
    assert window[..|window|] == window;
  }

  /** The cycle's add for one new identifier: look its configuration up
      and, when found, add its job. */
  function AddIfConfigured(s: Store, reg: Registry, policyId: string, validCron: string -> bool): Registry {
    match GetPolicyTaskGenConfig(s, policyId)
    case None => reg
    case Some(c) => AddPolicyJob(reg, c, validCron).0
  }

  /** On a policy with no job yet, the add step activates it exactly when it qualifies. */
  lemma AddStep(s: Store, active: set<string>, p: string, validCron: string -> bool)
    requires p !in active
    ensures AddIfConfigured(s, RegistryOf(active), p, validCron)
            == RegistryOf(if Qualifies(s, p, validCron) then active + {p} else active)
  {
    var lookup := GetPolicyTaskGenConfig(s, p);
    if lookup.Some? {
      var c := lookup.value;
      assert c.policyId == p;
      assert AddIfConfigured(s, RegistryOf(active), p, validCron) == AddPolicyJob(RegistryOf(active), c, validCron).0;
      if c.taskType == Scheduled {
        AddToRegistryOf(active, c, validCron);
        assert active - {p} == active;
      }
    }
  }

  lemma AdmittedAddOne(s: Store, a: set<string>, p: string, validCron: string -> bool)
    ensures Admitted(s, a + {p}, validCron)
            == if Qualifies(s, p, validCron) then Admitted(s, a, validCron) + {p} else Admitted(s, a, validCron)
  {
  }

  /** The active set after adding `p` to the done set, at the level of sets. */
  lemma AdmittedStep(s: Store, keys: set<string>, done: set<string>, p: string, validCron: string -> bool)
    requires p !in keys && p !in done
    ensures p !in keys + Admitted(s, done, validCron)
    ensures keys + Admitted(s, done + {p}, validCron)
            == if Qualifies(s, p, validCron) then keys + Admitted(s, done, validCron) + {p} else keys + Admitted(s, done, validCron)
  {
    AdmittedAddOne(s, done, p, validCron);
  }

  /** One iteration of the add loop, on the registry of the active set so far. */
  lemma AddLoopStep(s: Store, keys: set<string>, done: set<string>, p: string, validCron: string -> bool)
    requires p !in keys && p !in done
    ensures AddIfConfigured(s, RegistryOf(keys + Admitted(s, done, validCron)), p, validCron)
            == RegistryOf(keys + Admitted(s, done + {p}, validCron))
  {
    AdmittedStep(s, keys, done, p, validCron);
    AddStep(s, keys + Admitted(s, done, validCron), p, validCron);
  }

  /** Adds every policy of `newPolicies` (none of which is active) in some order. */
  method AddNewPolicies(s: Store, reg: Registry, newPolicies: set<string>, validCron: string -> bool) returns (r: Registry)
    requires Inv(reg) && newPolicies !! reg.jobs.Keys
    ensures r == RegistryOf(reg.jobs.Keys + Admitted(s, newPolicies, validCron))
  {
    ghost var keys := reg.jobs.Keys;
    InvIsRegistryOf(reg);
    assert keys + Admitted(s, {}, validCron) == keys;
    r := reg;
    var todo := newPolicies;
    ghost var done: set<string> := {};
    while todo != {}
      invariant todo <= newPolicies && done == newPolicies - todo
      invariant r == RegistryOf(keys + Admitted(s, done, validCron))
      decreases todo
    {
      var p :| p in todo;
      assert p !in keys && p !in done;
      AddLoopStep(s, keys, done, p, validCron);
      r := AddIfConfigured(s, r, p, validCron);
      todo := todo - {p};
      done := done + {p};
    }
    assert done == newPolicies;
  }

  /** Removes every policy of `removed` in some order. */
  method RemoveStalePolicies(reg: Registry, removed: set<string>) returns (r: Registry)
    requires Inv(reg)
    ensures r == RegistryOf(reg.jobs.Keys - removed)
  {
    InvIsRegistryOf(reg);
    r := reg;
    var todo := removed;
    while todo != {}
      invariant todo <= removed
      invariant r == RegistryOf(reg.jobs.Keys - (removed - todo))
      decreases todo
    {
      var q :| q in todo;
      RemoveFromRegistryOf(reg.jobs.Keys - (removed - todo), q);
      assert reg.jobs.Keys - (removed - todo) - {q} == reg.jobs.Keys - (removed - (todo - {q}));
      r := RemovePolicyJob(r, q);
      todo := todo - {q};
    }
  }

  /**
   One cycle of the monitor: compute the desired set from the window, add
   every desired identifier that has no job, then remove every active
   identifier that is not desired. The result is the registry of the
   reconciled active set.
   */
  method MonitorCycle(s: Store, reg: Registry, validCron: string -> bool) returns (r: Registry)
    requires Inv(reg)
    ensures r == RegistryOf(Reconciled(s, reg.jobs.Keys, validCron))
    ensures forall p :: p in Desired(s) && Qualifies(s, p, validCron) ==> p in GetActivePolicies(r)
    ensures GetActivePolicies(r) <= Desired(s)
  {
    var current := reg.jobs.Keys;
    var desired := ComputeDesired(s, Window(s));
    var newPolicies := desired - current;
    var added := AddNewPolicies(s, reg, newPolicies, validCron);
    var removedPolicies := current - desired;
    r := RemoveStalePolicies(added, removedPolicies);
    assert current + Admitted(s, newPolicies, validCron) - removedPolicies == Reconciled(s, current, validCron);
  }

  /** A second cycle on an unchanged store changes nothing. */
  lemma ReconcileIdempotent(s: Store, ps: set<string>, validCron: string -> bool)
    ensures Reconciled(s, Reconciled(s, ps, validCron), validCron) == Reconciled(s, ps, validCron)
  {
  }

  /**
   A policy none of whose configurations lies within the first
   `DefaultLimit` rows is never desired: a cycle never adds it and removes
   it if it was active.
   */
  lemma PolicyBeyondWindowInactive(s: Store, ps: set<string>, validCron: string -> bool, p: string)
    requires forall i :: 0 <= i < |s.genConfigs| && s.genConfigs[i].policyId == p ==> i >= DefaultLimit
    ensures p !in Desired(s)
    ensures p !in Reconciled(s, ps, validCron)
  {
    forall c | c in Window(s) ensures c.policyId != p {
      var i :| 0 <= i < |Window(s)| && Window(s)[i] == c;
      assert s.genConfigs[i] == c;
    }
  }

  /**
   A desired policy whose first configuration is one-time (a later one
   being scheduled) is never added by a cycle: the add registers nothing.
   The load pass can still give it a job (see
   `LoadedScheduledPolicyStaysActive`).
   */
  lemma ShadowedScheduledConfigStaysInactive(s: Store, ps: set<string>, validCron: string -> bool, p: string)
    requires GetPolicyTaskGenConfig(s, p).Some? && GetPolicyTaskGenConfig(s, p).value.taskType == OneTime
    requires p in Desired(s) && p !in ps
    ensures p !in Reconciled(s, ps, validCron)
  {
  }

  /**
   With distinct configuration identifiers and no more configurations than
   the window holds, a cycle from an empty registry activates exactly the
   enabled policies whose configuration is scheduled with a valid cron.
   */
  lemma FreshCycleMatchesDesiredState(s: Store, validCron: string -> bool, p: string)
    requires UniqueGenConfigIds(s) && |s.genConfigs| <= DefaultLimit
    ensures p in Reconciled(s, {}, validCron) <==>
              IsEnabled(s, p) && GetPolicyTaskGenConfig(s, p).Some?
              && GetPolicyTaskGenConfig(s, p).value.taskType == Scheduled
              && validCron(GetPolicyTaskGenConfig(s, p).value.cronExpression)
  {
    assert Window(s) == s.genConfigs;
    if IsEnabled(s, p) && Qualifies(s, p, validCron) {
      var c := GetPolicyTaskGenConfig(s, p).value;
      var i :| 0 <= i < |s.genConfigs| && s.genConfigs[i] == c;
      assert c in Window(s);
      assert p in Desired(s);
    }
  }

  /** The last scheduled configuration of `policyId` among `cs`, if any. */
  function LastScheduled(cs: seq<PolicyTaskGenConfig>, policyId: string): (r: Option<PolicyTaskGenConfig>)
    ensures r.Some? ==> r.value in cs && r.value.policyId == policyId && r.value.taskType == Scheduled
    ensures r.None? ==> forall c :: c in cs ==> !(c.policyId == policyId && c.taskType == Scheduled)
    ensures r.Some? ==> exists i :: 0 <= i < |cs| && cs[i] == r.value
                                  && forall j :: i < j < |cs| ==> !(cs[j].policyId == policyId && cs[j].taskType == Scheduled)
  {
    if cs == [] then None
    else
      var n := |cs| - 1;
      assert cs == cs[..n] + [cs[n]];
      if cs[n].policyId == policyId && cs[n].taskType == Scheduled then Some(cs[n])
      else
        var r := LastScheduled(cs[..n], policyId);
        LastMatchExtends(cs[..n], cs[n], policyId, r);
        r
  }

  /** A last match in `prefix` stays the last match after appending a
      configuration that does not match. */
  lemma LastMatchExtends(prefix: seq<PolicyTaskGenConfig>, c: PolicyTaskGenConfig, policyId: string, r: Option<PolicyTaskGenConfig>)
    requires !(c.policyId == policyId && c.taskType == Scheduled)
    requires r.Some? ==> exists i :: 0 <= i < |prefix| && prefix[i] == r.value
                                  && (forall j :: i < j < |prefix| ==> !(prefix[j].policyId == policyId && prefix[j].taskType == Scheduled))
    ensures r.Some? ==> exists i :: 0 <= i < |prefix + [c]| && (prefix + [c])[i] == r.value
                                 && (forall j :: i < j < |prefix + [c]| ==> !((prefix + [c])[j].policyId == policyId && (prefix + [c])[j].taskType == Scheduled))
  {
    if r.Some? {
      var cs := prefix + [c];
      var i :| 0 <= i < |prefix| && prefix[i] == r.value
               && (forall j :: i < j < |prefix| ==> !(prefix[j].policyId == policyId && prefix[j].taskType == Scheduled));
      assert cs[i] == r.value;
      forall j | i < j < |cs| ensures !(cs[j].policyId == policyId && cs[j].taskType == Scheduled) {
        if j < |prefix| { assert cs[j] == prefix[j]; }
      }
    }
  }

  /** Whether the load pass counts configuration `c`: its policy is enabled
      and its add succeeds. */
  predicate Loadable(s: Store, c: PolicyTaskGenConfig, validCron: string -> bool) {
    IsEnabled(s, c.policyId) && (c.taskType == OneTime || validCron(c.cronExpression))
  }

  function LoadableIndices(s: Store, cs: seq<PolicyTaskGenConfig>, validCron: string -> bool): set<int> {
    set i | 0 <= i < |cs| && Loadable(s, cs[i], validCron)
  }

  lemma LoadableIndicesStep(s: Store, cs: seq<PolicyTaskGenConfig>, validCron: string -> bool)
    requires cs != []
    ensures |LoadableIndices(s, cs, validCron)|
            == |LoadableIndices(s, cs[..|cs| - 1], validCron)| + (if Loadable(s, cs[|cs| - 1], validCron) then 1 else 0)
  {
    var n := |cs| - 1;
    assert forall i :: 0 <= i < n ==> cs[..n][i] == cs[i];
    assert LoadableIndices(s, cs, validCron)
           == LoadableIndices(s, cs[..n], validCron) + (if Loadable(s, cs[n], validCron) then {n} else {});
  }

  /**
   The load pass over `cs` in order: each configuration of an enabled
   policy is added. The count is the number of adds that succeeded, one-time
   configurations included although they register nothing.
   */
  function LoadPass(s: Store, cs: seq<PolicyTaskGenConfig>, reg: Registry, validCron: string -> bool): (r: (Registry, nat))
    ensures r.1 == |LoadableIndices(s, cs, validCron)|
    ensures r.1 <= |cs|
    ensures Inv(reg) ==> Inv(r.0)
    decreases |cs|
  {
    if cs == [] then
      assert LoadableIndices(s, cs, validCron) == {};
      (reg, 0)
    else
      var n := |cs| - 1;
      var c := cs[n];
      var prev := LoadPass(s, cs[..n], reg, validCron);
      LoadableIndicesStep(s, cs, validCron);
      if IsEnabled(s, c.policyId) then
        var added := AddPolicyJob(prev.0, c, validCron);
        (added.0, if added.1 then prev.1 + 1 else prev.1)
      else
        (prev.0, prev.1)
  }

  /**
   After the load pass, an enabled policy with a scheduled configuration
   among `cs` has a job exactly when its LAST such configuration has a
   valid cron expression; every other policy keeps its previous state.
   */
  lemma {:induction false} LoadPassDecides(s: Store, cs: seq<PolicyTaskGenConfig>, reg: Registry, validCron: string -> bool, p: string)
    requires Inv(reg)
    ensures p in LoadPass(s, cs, reg, validCron).0.jobs <==>
              if IsEnabled(s, p) && LastScheduled(cs, p).Some?
              then validCron(LastScheduled(cs, p).value.cronExpression)
              else p in reg.jobs
    decreases |cs|
  {
    if cs != [] {
      var n := |cs| - 1;
      var c := cs[n];
      LoadPassDecides(s, cs[..n], reg, validCron, p);
      var prev := LoadPass(s, cs[..n], reg, validCron).0;
      assert Inv(prev);
      if IsEnabled(s, c.policyId) && c.policyId == p && c.taskType == Scheduled {
        assert LastScheduled(cs, p) == Some(c);
      } else {
        assert LastScheduled(cs, p) == LastScheduled(cs[..n], p) || !IsEnabled(s, p);
      }
    }
  }

  /**
   A policy none of whose configurations among `cs` is scheduled (all of
   them one-time, say) keeps its registry membership through the load pass.
   */
  lemma LoadPassKeepsUnscheduled(s: Store, cs: seq<PolicyTaskGenConfig>, reg: Registry, validCron: string -> bool, p: string)
    requires Inv(reg)
    requires forall i :: 0 <= i < |cs| && cs[i].policyId == p ==> cs[i].taskType == OneTime
    ensures p in LoadPass(s, cs, reg, validCron).0.jobs <==> p in reg.jobs
  {
    LoadPassDecides(s, cs, reg, validCron, p);
  }

  /** The load pass run at start-up and on reload, over the listing window. */
  function LoadAllPolicies(s: Store, reg: Registry, validCron: string -> bool): (r: (Registry, nat))
    ensures r.1 <= DefaultLimit
    ensures Inv(reg) ==> Inv(r.0)
  {
    LoadPass(s, Window(s), reg, validCron)
  }

  /**
   When every configuration is a one-time configuration of an enabled
   policy, the load pass counts them all and registers nothing.
   */
  lemma {:induction false} LoadPassOneTime(s: Store, cs: seq<PolicyTaskGenConfig>, reg: Registry, validCron: string -> bool)
    requires forall i :: 0 <= i < |cs| ==> cs[i].taskType == OneTime && IsEnabled(s, cs[i].policyId)
    ensures LoadPass(s, cs, reg, validCron) == (reg, |cs|)
    decreases |cs|
  {
    if cs != [] {
      var n := |cs| - 1;
      var c := cs[n];
      assert forall i :: 0 <= i < n ==> cs[..n][i] == cs[i];
      LoadPassOneTime(s, cs[..n], reg, validCron);
      assert c.taskType == OneTime && IsEnabled(s, c.policyId);
      var added := AddPolicyJob(reg, c, validCron);
      assert added == (reg, true);
      LoadPassUnfold(s, cs, reg, validCron);
    }
  }

  /** One step of the load pass: the last configuration is added to the
      result of the pass over the others. */
  lemma LoadPassUnfold(s: Store, cs: seq<PolicyTaskGenConfig>, reg: Registry, validCron: string -> bool)
    requires cs != []
    ensures var n := |cs| - 1;
            var prev := LoadPass(s, cs[..n], reg, validCron);
            var added := AddPolicyJob(prev.0, cs[n], validCron);
            LoadPass(s, cs, reg, validCron)
            == if IsEnabled(s, cs[n].policyId) then (added.0, if added.1 then prev.1 + 1 else prev.1) else prev
  {
  }

  /**
   The load pass adds every enabled configuration, not only the first one
   found for a policy. So an enabled policy with a scheduled configuration
   with a valid cron in the window gets a job on load, even when its first
   configuration is one-time, and every later cycle keeps that job,
   because the policy is both active and desired.
   */
  lemma LoadedScheduledPolicyStaysActive(s: Store, reg: Registry, validCron: string -> bool, p: string)
    requires Inv(reg)
    requires IsEnabled(s, p) && LastScheduled(Window(s), p).Some?
    requires validCron(LastScheduled(Window(s), p).value.cronExpression)
    ensures p in LoadAllPolicies(s, reg, validCron).0.jobs
    ensures p in Desired(s)
    ensures p in Reconciled(s, LoadAllPolicies(s, reg, validCron).0.jobs.Keys, validCron)
  {
    LoadPassDecides(s, Window(s), reg, validCron, p);
    var c := LastScheduled(Window(s), p).value;
    assert c in Window(s) && IsEnabled(s, c.policyId) && c.taskType == Scheduled;
  }

  /** The same for the start-up load over the window. */
  lemma LoadCountsOneTimeConfigs(s: Store, reg: Registry, validCron: string -> bool)
    requires forall i :: 0 <= i < |Window(s)| ==> Window(s)[i].taskType == OneTime && IsEnabled(s, Window(s)[i].policyId)
    ensures LoadAllPolicies(s, reg, validCron) == (reg, |Window(s)|)
  {
    LoadPassOneTime(s, Window(s), reg, validCron);
  }

  /**
   With distinct configuration identifiers and no more configurations than
   the window holds, loading into an empty registry gives the same
   registry as one monitor cycle from an empty registry.
   */
  lemma LoadMatchesFreshCycle(s: Store, validCron: string -> bool)
    requires UniqueGenConfigIds(s) && |s.genConfigs| <= DefaultLimit
    ensures LoadAllPolicies(s, Empty(), validCron).0 == RegistryOf(Reconciled(s, {}, validCron))
  {
    var r := LoadAllPolicies(s, Empty(), validCron).0;
    var target := Reconciled(s, {}, validCron);
    assert Inv(r);
    InvIsRegistryOf(r);
    forall p ensures p in r.jobs.Keys <==> p in target {
      LoadMatchesFreshCycleAt(s, validCron, p);
    }
    assert r.jobs.Keys == target;
  }

  lemma LoadMatchesFreshCycleAt(s: Store, validCron: string -> bool, p: string)
    requires UniqueGenConfigIds(s) && |s.genConfigs| <= DefaultLimit
    ensures p in LoadAllPolicies(s, Empty(), validCron).0.jobs <==> p in Reconciled(s, {}, validCron)
  {
    assert Window(s) == s.genConfigs;
    FreshCycleMatchesDesiredState(s, validCron, p);
    LoadPassDecides(s, s.genConfigs, Empty(), validCron, p);
    var last := LastScheduled(s.genConfigs, p);
    if last.Some? {
      var i :| 0 <= i < |s.genConfigs| && s.genConfigs[i] == last.value;
      FirstGenConfigLookup(s, i);
    } else if GetPolicyTaskGenConfig(s, p).Some? {
      var c := GetPolicyTaskGenConfig(s, p).value;
      var i :| 0 <= i < |s.genConfigs| && s.genConfigs[i] == c;
      assert c in s.genConfigs;
    }
  }
}

=== FILE: services.dfy ===
/**
 The generation executor: runs a policy's query through the backend,
 normalises the result rows, persists one seed task per row, and for
 one-time policies consumes the pending tasks after a successful run.
 The backend is a parameter `run` from query text to outcome; a commit
 failure is the parameter `failAt`, the index of the first row whose
 persistence fails.
 */
module Services {
  import opened Wrappers
  import opened Models
  import opened Crud

  /** A raw result cell: a plain scalar, or an object with a `.value`
      attribute (an enumeration member) that carries a scalar. */
  datatype Cell = Plain(scalar: Scalar) | WithValue(value: Scalar)

  /** What the backend answers to a query: a failure, or columns and rows. */
  datatype QueryOutcome = QueryFailed | ResultSet(columns: seq<string>, rows: seq<seq<Cell>>)

  function Normalise(c: Cell): Scalar {
    match c
    case Plain(v) => v
    case WithValue(v) => v
  }

  /** Column `i` is the last one carrying its name. */
  predicate LastOccurrence(columns: seq<string>, i: int)
    requires 0 <= i < |columns|
  {
    forall j :: i < j < |columns| ==> columns[j] != columns[i]
  }

  /**
   The dict built for one row. Columns are assigned left to right, so the
   dict has one entry per distinct column name.
   */
  function RowDict(columns: seq<string>, row: seq<Cell>): (r: Row)
    requires |columns| <= |row|
    ensures forall c :: c in r <==> c in columns
  {
    if columns == [] then map[]
    else
      var n := |columns| - 1;
      assert columns == columns[..n] + [columns[n]];
      RowDict(columns[..n], row)[columns[n] := Normalise(row[n])]
  }

  /** A column's entry holds the normalised cell of the column's last occurrence. */
  lemma {:induction false} RowDictLastWins(columns: seq<string>, row: seq<Cell>, i: int)
    requires |columns| <= |row| && 0 <= i < |columns| && LastOccurrence(columns, i)
    ensures RowDict(columns, row)[columns[i]] == Normalise(row[i])
    decreases |columns|
  {
    var n := |columns| - 1;
    if i < n {
      assert columns[..n][i] == columns[i];
      assert LastOccurrence(columns[..n], i);
      RowDictLastWins(columns[..n], row, i);
    }
  }

  /** Every row has a cell for every column. */
  predicate Shaped(columns: seq<string>, rows: seq<seq<Cell>>) {
    forall k :: 0 <= k < |rows| ==> |columns| <= |rows[k]|
  }

  /**
   The normalised rows of a query. A failing query, or a row too short for
   the column list (an index error inside the conversion), yields no rows;
   no failure reaches the caller.
   */
  function ExecuteTaskGenerationSql(outcome: QueryOutcome): (r: seq<Row>)
    ensures outcome.QueryFailed? ==> r == []
    ensures outcome.ResultSet? && !Shaped(outcome.columns, outcome.rows) ==> r == []
    ensures outcome.ResultSet? && Shaped(outcome.columns, outcome.rows) ==>
              |r| == |outcome.rows|
              && forall k, c :: 0 <= k < |r| ==> (c in r[k] <==> c in outcome.columns)
  {
    match outcome
    case QueryFailed => []
    case ResultSet(columns, rows) =>
      if Shaped(columns, rows) then seq(|rows|, k requires 0 <= k < |rows| => RowDict(columns, rows[k]))
      else []
  }

  /**
   In row `k` of a well-shaped result, the entry of a column carries the
   cell of its last occurrence: a plain cell unchanged, a `.value` cell
   replaced by that value.
   */
  lemma NormalisedCells(outcome: QueryOutcome, k: int, i: int)
    requires outcome.ResultSet? && Shaped(outcome.columns, outcome.rows)
    requires 0 <= k < |outcome.rows| && 0 <= i < |outcome.columns| && LastOccurrence(outcome.columns, i)
    ensures outcome.rows[k][i].Plain? ==>
              ExecuteTaskGenerationSql(outcome)[k][outcome.columns[i]] == outcome.rows[k][i].scalar
    ensures outcome.rows[k][i].WithValue? ==>
              ExecuteTaskGenerationSql(outcome)[k][outcome.columns[i]] == outcome.rows[k][i].value
  {
    RowDictLastWins(outcome.columns, outcome.rows[k], i);
  }

  /**
   `r` is `s` with exactly the first `n` rows appended as new, unconsumed
   tasks of the given policy and kind, in row order, under consecutive
   identities; everything stored before is untouched.
   */
  ghost predicate AppendsRows(s: Store, r: Store, policyId: string, taskType: TaskType, rows: seq<Row>, n: nat) {
    && n <= |rows|
    && |r.seedTasks| == |s.seedTasks| + n
    && r.seedTasks[..|s.seedTasks|] == s.seedTasks
    && (forall k :: 0 <= k < n ==>
          r.seedTasks[|s.seedTasks| + k] == NewSeedTask(s.nextTaskId + k, policyId, taskType, rows[k]))
    && r.nextTaskId == s.nextTaskId + n
    && r.policies == s.policies && r.genConfigs == s.genConfigs
  }

  /** Persists one task per row, in row order, each committed on its own. */
  function PersistRows(s: Store, policyId: string, taskType: TaskType, rows: seq<Row>): (r: Store)
    ensures AppendsRows(s, r, policyId, taskType, rows, |rows|)
    ensures WellFormed(s) ==> WellFormed(r)
    decreases |rows|
  {
    if rows == [] then s
    else
      var s1 := CreateSeedTask(s, policyId, taskType, rows[0]).0;
      var r := PersistRows(s1, policyId, taskType, rows[1..]);
      AppendOneThenRest(s, s1, r, policyId, taskType, rows);
      r
  }

  lemma AppendOneThenRest(s: Store, s1: Store, r: Store, policyId: string, taskType: TaskType, rows: seq<Row>)
    requires rows != []
    requires s1 == CreateSeedTask(s, policyId, taskType, rows[0]).0
    requires AppendsRows(s1, r, policyId, taskType, rows[1..], |rows| - 1)
    ensures AppendsRows(s, r, policyId, taskType, rows, |rows|)
  {
    var m := |s.seedTasks|;
    assert r.seedTasks[m] == r.seedTasks[..m + 1][m];
    assert r.seedTasks[..m] == r.seedTasks[..m + 1][..m];
    forall k | 1 <= k < |rows|
      ensures r.seedTasks[m + k] == NewSeedTask(s.nextTaskId + k, policyId, taskType, rows[k])
    {
      assert rows[1..][k - 1] == rows[k];
      assert r.seedTasks[(m + 1) + (k - 1)] == NewSeedTask(s1.nextTaskId + (k - 1), policyId, taskType, rows[1..][k - 1]);
    }
  }

  /** The rows a configuration's query yields. */
  function QueryRows(c: PolicyTaskGenConfig, run: string -> QueryOutcome): seq<Row> {
    ExecuteTaskGenerationSql(run(c.taskGenSql))
  }

  /**
   Generates the seed tasks of one configuration. A missing or disabled
   policy record yields 0 and no writes. Otherwise one task per result row
   is persisted and the row count returned; if the commit of row `failAt`
   fails, the rows before it stay stored and the answer is 0.
   */
  function GenerateSeedTasks(s: Store, c: PolicyTaskGenConfig, run: string -> QueryOutcome, failAt: Option<nat>): (r: (Store, int))
    ensures !IsEnabled(s, c.policyId) ==> r == (s, 0)
    ensures IsEnabled(s, c.policyId) && (failAt.None? || failAt.value >= |QueryRows(c, run)|) ==>
              r.1 == |QueryRows(c, run)| && AppendsRows(s, r.0, c.policyId, c.taskType, QueryRows(c, run), r.1)
    ensures IsEnabled(s, c.policyId) && failAt.Some? && failAt.value < |QueryRows(c, run)| ==>
              r.1 == 0 && AppendsRows(s, r.0, c.policyId, c.taskType, QueryRows(c, run), failAt.value)
    ensures WellFormed(s) ==> WellFormed(r.0)
  {
    if !IsEnabled(s, c.policyId) then (s, 0)
    else
      var rows := QueryRows(c, run);
      if failAt.Some? && failAt.value < |rows| then
        var committed := rows[..failAt.value];
        var r := PersistRows(s, c.policyId, c.taskType, committed);
        assert forall k :: 0 <= k < failAt.value ==> committed[k] == rows[k];
        (r, 0)
      else
        (PersistRows(s, c.policyId, c.taskType, rows), |rows|)
  }

  /**
   Generation only appends unconsumed tasks of the configuration's policy
   and kind; no stored task changes.
   */
  lemma GenerateAppendsOwnTasks(s: Store, c: PolicyTaskGenConfig, run: string -> QueryOutcome, failAt: Option<nat>)
    ensures var r := GenerateSeedTasks(s, c, run, failAt).0;
            && |s.seedTasks| <= |r.seedTasks|
            && r.seedTasks[..|s.seedTasks|] == s.seedTasks
            && forall k :: |s.seedTasks| <= k < |r.seedTasks| ==>
                 r.seedTasks[k].policyId == c.policyId && r.seedTasks[k].taskType == c.taskType && !r.seedTasks[k].isConsumed
  {
    var r := GenerateSeedTasks(s, c, run, failAt).0;
    if IsEnabled(s, c.policyId) {
      var rows := QueryRows(c, run);
      if failAt.Some? && failAt.value < |rows| {
        AppendedTasksAreOwn(s, r, c.policyId, c.taskType, rows, failAt.value);
      } else {
        AppendedTasksAreOwn(s, r, c.policyId, c.taskType, rows, |rows|);
      }
    }
  }

  lemma AppendedTasksAreOwn(s: Store, r: Store, policyId: string, taskType: TaskType, rows: seq<Row>, n: nat)
    requires AppendsRows(s, r, policyId, taskType, rows, n)
    ensures forall k :: |s.seedTasks| <= k < |r.seedTasks| ==>
              r.seedTasks[k].policyId == policyId && r.seedTasks[k].taskType == taskType && !r.seedTasks[k].isConsumed
  {
    forall k | |s.seedTasks| <= k < |r.seedTasks|
      ensures r.seedTasks[k].policyId == policyId && r.seedTasks[k].taskType == taskType && !r.seedTasks[k].isConsumed
    {
      var j := k - |s.seedTasks|;
      assert r.seedTasks[|s.seedTasks| + j] == NewSeedTask(s.nextTaskId + j, policyId, taskType, rows[j]);
    }
  }

  /**
   The pending tasks of one policy (all policies when the identifier is ""),
   each as often as the table holds it.
   */
  function GetOneTimeTasks(s: Store, policyId: string): (r: seq<SeedTask>)
    ensures forall t :: t in r <==>
              t in s.seedTasks && !t.isConsumed && (policyId != "" ==> t.policyId == policyId)
    ensures forall t :: multiset(r)[t] ==
              if !t.isConsumed && (policyId != "" ==> t.policyId == policyId) then multiset(s.seedTasks)[t] else 0
  {
    GetPendingSeedTasks(s, Some(policyId))
  }

  /** Marks one task consumed; true exactly when a task with that identity
      exists. Only a task of that identity changes, and only its flag. */
  function ConsumeOneTimeTask(s: Store, taskId: int): (r: (Store, bool))
    ensures r.1 <==> exists i :: 0 <= i < |s.seedTasks| && s.seedTasks[i].id == taskId
    ensures !r.1 ==> r.0 == s
    ensures r.1 ==> exists i :: 0 <= i < |r.0.seedTasks| && r.0.seedTasks[i].id == taskId && r.0.seedTasks[i].isConsumed
    ensures MarksOnly(s, r.0, {taskId})
    ensures r.0.policies == s.policies && r.0.genConfigs == s.genConfigs && r.0.nextTaskId == s.nextTaskId
  {
    var (s', t) := MarkSeedTaskConsumed(s, taskId);
    (s', t.Some?)
  }

  /** The identities of a list of tasks. */
  function IdsOf(ts: seq<SeedTask>): set<int> {
    set t | t in ts :: t.id
  }

  /** `r` differs from `s` only in consumed flags set to true, and only on
      tasks whose identity is in `ids`. */
  ghost predicate MarksOnly(s: Store, r: Store, ids: set<int>) {
    && |r.seedTasks| == |s.seedTasks|
    && forall i :: 0 <= i < |s.seedTasks| ==>
         r.seedTasks[i] == s.seedTasks[i]
         || (s.seedTasks[i].id in ids && r.seedTasks[i] == s.seedTasks[i].(isConsumed := true))
  }

  /** `r` is `s` with exactly the tasks whose identity is in `ids` consumed. */
  ghost predicate MarksExactly(s: Store, r: Store, ids: set<int>) {
    && |r.seedTasks| == |s.seedTasks|
    && forall i :: 0 <= i < |s.seedTasks| ==>
         r.seedTasks[i] == if s.seedTasks[i].id in ids then s.seedTasks[i].(isConsumed := true) else s.seedTasks[i]
  }

  lemma MarksOnlyCompose(s: Store, s1: Store, r: Store, a: set<int>, b: set<int>)
    requires MarksOnly(s, s1, a) && MarksOnly(s1, r, b)
    ensures MarksOnly(s, r, a + b)
  {
    forall i | 0 <= i < |s.seedTasks|
      ensures r.seedTasks[i] == s.seedTasks[i]
              || (s.seedTasks[i].id in a + b && r.seedTasks[i] == s.seedTasks[i].(isConsumed := true))
    {
      assert s1.seedTasks[i].id == s.seedTasks[i].id;
    }
  }

  lemma MarksExactlyCompose(s: Store, s1: Store, r: Store, a: set<int>, b: set<int>)
    requires MarksExactly(s, s1, a) && MarksExactly(s1, r, b)
    ensures MarksExactly(s, r, a + b)
  {
    forall i | 0 <= i < |s.seedTasks|
      ensures r.seedTasks[i] == if s.seedTasks[i].id in a + b then s.seedTasks[i].(isConsumed := true) else s.seedTasks[i]
    {
      assert s1.seedTasks[i].id == s.seedTasks[i].id;
    }
  }

  /** Marking keeps every identity, so the uniqueness and bound on identities carry over. */
  lemma MarksOnlyKeepsWellFormed(s: Store, r: Store, ids: set<int>)
    requires MarksOnly(s, r, ids)
    requires r.policies == s.policies && r.nextTaskId == s.nextTaskId
    ensures UniqueTaskIds(s.seedTasks) ==> UniqueTaskIds(r.seedTasks)
    ensures WellFormed(s) ==> WellFormed(r)
  {
    assert forall i :: 0 <= i < |s.seedTasks| ==> r.seedTasks[i].id == s.seedTasks[i].id;
  }

  /**
   Marks each listed task consumed, one at a time. A task changes only by
   its flag becoming true, and only if its identity is listed; with unique
   identities, exactly the listed tasks end up consumed.
   */
  function ConsumeAll(s: Store, ts: seq<SeedTask>): (r: Store)
    ensures r.policies == s.policies && r.genConfigs == s.genConfigs && r.nextTaskId == s.nextTaskId
    ensures MarksOnly(s, r, IdsOf(ts))
    ensures UniqueTaskIds(s.seedTasks) ==> MarksExactly(s, r, IdsOf(ts))
    ensures WellFormed(s) ==> WellFormed(r)
    decreases |ts|
  {
    if ts == [] then
      assert MarksExactly(s, s, {});
      s
    else
      var s1 := ConsumeOneTimeTask(s, ts[0].id).0;
      assert s1 == MarkSeedTaskConsumed(s, ts[0].id).0;
      assert MarksOnly(s, s1, {ts[0].id});
      assert UniqueTaskIds(s.seedTasks) ==> MarksExactly(s, s1, {ts[0].id});
      MarksOnlyKeepsWellFormed(s, s1, {ts[0].id});
      assert IdsOf(ts) == {ts[0].id} + IdsOf(ts[1..]) by {
        assert ts == [ts[0]] + ts[1..];
      }
      var r := ConsumeAll(s1, ts[1..]);
      MarksOnlyCompose(s, s1, r, {ts[0].id}, IdsOf(ts[1..]));
      assert UniqueTaskIds(s.seedTasks) ==> MarksExactly(s, r, IdsOf(ts)) by {
        if UniqueTaskIds(s.seedTasks) {
          MarksExactlyCompose(s, s1, r, {ts[0].id}, IdsOf(ts[1..]));
        }
      }
      r
  }

  /**
   Generation for a one-time configuration: anything else, or a missing or
   disabled policy, yields 0 and no writes. A run that generated nothing
   leaves exactly the rows generation committed, unconsumed. After a run
   that generated tasks, every pending task of the policy is consumed,
   including tasks pending before the call.
   */
  function HandleOneTimeTaskGeneration(s: Store, c: PolicyTaskGenConfig, run: string -> QueryOutcome, failAt: Option<nat>): (r: (Store, int))
    ensures c.taskType != OneTime ==> r == (s, 0)
    ensures !IsEnabled(s, c.policyId) ==> r == (s, 0)
    ensures c.taskType == OneTime ==> r.1 == GenerateSeedTasks(s, c, run, failAt).1
    ensures c.taskType == OneTime && r.1 == 0 ==>
              AppendsRows(s, r.0, c.policyId, OneTime, QueryRows(c, run),
                          if IsEnabled(s, c.policyId) && failAt.Some? && failAt.value < |QueryRows(c, run)|
                          then failAt.value else 0)
    ensures r.1 == 0 ==> |s.seedTasks| <= |r.0.seedTasks|
                         && forall i :: 0 <= i < |s.seedTasks| ==> r.0.seedTasks[i] == s.seedTasks[i]
    ensures r.0.policies == s.policies && r.0.genConfigs == s.genConfigs
    ensures WellFormed(s) ==> WellFormed(r.0)
  {
    if c.taskType != OneTime then (s, 0)
    else
      var (s1, n) := GenerateSeedTasks(s, c, run, failAt);
      if n > 0 then
        (ConsumeAll(s1, GetOneTimeTasks(s1, c.policyId)), n)
      else
        assert forall i :: 0 <= i < |s.seedTasks| ==> s1.seedTasks[i] == s1.seedTasks[..|s.seedTasks|][i];
        (s1, n)
  }

  /**
   After a one-time run that generated tasks, no task of the policy is
   pending, including tasks that were pending before the call; with the
   identifier "" no task of any policy is pending. The answer is the row count.
   */
  lemma OneTimeConsumesAllPending(s: Store, c: PolicyTaskGenConfig, run: string -> QueryOutcome, failAt: Option<nat>)
    requires WellFormed(s) && c.taskType == OneTime
    ensures var (r, n) := HandleOneTimeTaskGeneration(s, c, run, failAt);
            n > 0 ==> forall i :: 0 <= i < |r.seedTasks| && (c.policyId == "" || r.seedTasks[i].policyId == c.policyId) ==>
                        r.seedTasks[i].isConsumed
    ensures HandleOneTimeTaskGeneration(s, c, run, failAt).1 > 0 ==> HandleOneTimeTaskGeneration(s, c, run, failAt).1 == |QueryRows(c, run)|
  {
    if HandleOneTimeTaskGeneration(s, c, run, failAt).1 > 0 {
      var s1 := GenerateSeedTasks(s, c, run, failAt).0;
      var pending := GetOneTimeTasks(s1, c.policyId);
      var r := ConsumeAll(s1, pending);
      assert r == HandleOneTimeTaskGeneration(s, c, run, failAt).0;
      assert WellFormed(s1);
      PendingAllMarked(s1, r, c.policyId, pending);
    }
  }

  /** Marking exactly the identities of the pending tasks leaves no task
      of the policy pending. */
  lemma PendingAllMarked(s: Store, r: Store, policyId: string, pending: seq<SeedTask>)
    requires ListsPending(s, policyId, pending) && MarksExactly(s, r, IdsOf(pending))
    ensures forall i :: 0 <= i < |r.seedTasks| && (policyId == "" || r.seedTasks[i].policyId == policyId) ==>
              r.seedTasks[i].isConsumed
  {
    forall i | 0 <= i < |r.seedTasks| && (policyId == "" || r.seedTasks[i].policyId == policyId)
      ensures r.seedTasks[i].isConsumed
    {
      if !s.seedTasks[i].isConsumed {
        assert s.seedTasks[i] in pending;
        assert s.seedTasks[i].id in IdsOf(pending);
      }
    }
  }

  /** `pending` holds exactly the pending tasks of the policy (of every
      policy for ""), as `GetOneTimeTasks` returns them. */
  ghost predicate ListsPending(s: Store, policyId: string, pending: seq<SeedTask>) {
    forall t :: t in pending <==>
      t in s.seedTasks && !t.isConsumed && (policyId != "" ==> t.policyId == policyId)
  }

  /** A task whose identity some pending task carries is itself pending,
      under unique identities. */
  lemma PendingIdentityIsPending(s: Store, policyId: string, pending: seq<SeedTask>, i: int)
    requires UniqueTaskIds(s.seedTasks) && 0 <= i < |s.seedTasks|
    requires ListsPending(s, policyId, pending) && s.seedTasks[i].id in IdsOf(pending)
    ensures !s.seedTasks[i].isConsumed && (policyId == "" || s.seedTasks[i].policyId == policyId)
  {
    var t :| t in pending && t.id == s.seedTasks[i].id;
    var j :| 0 <= j < |s.seedTasks| && s.seedTasks[j] == t;
    assert j == i;
  }

  /**
   After a one-time run that generated `n` tasks, the store holds them:
   `n` new tasks, one per row in row order under consecutive identities,
   each already consumed. An earlier task is either unchanged or only
   consumed, and then belongs to the policy (any policy for "").
   */
  lemma OneTimeKeepsGeneratedTasks(s: Store, c: PolicyTaskGenConfig, run: string -> QueryOutcome, failAt: Option<nat>)
    requires WellFormed(s) && c.taskType == OneTime
    ensures var (r, n) := HandleOneTimeTaskGeneration(s, c, run, failAt);
            n > 0 ==>
              && |r.seedTasks| == |s.seedTasks| + n
              && (forall k :: 0 <= k < n ==>
                    r.seedTasks[|s.seedTasks| + k]
                    == NewSeedTask(s.nextTaskId + k, c.policyId, OneTime, QueryRows(c, run)[k]).(isConsumed := true))
              && (forall i :: 0 <= i < |s.seedTasks| ==>
                    r.seedTasks[i] == s.seedTasks[i]
                    || (r.seedTasks[i] == s.seedTasks[i].(isConsumed := true)
                        && (c.policyId == "" || s.seedTasks[i].policyId == c.policyId)))
  {
    var (r, n) := HandleOneTimeTaskGeneration(s, c, run, failAt);
    if n > 0 {
      var rows := QueryRows(c, run);
      var s1 := GenerateSeedTasks(s, c, run, failAt).0;
      assert AppendsRows(s, s1, c.policyId, OneTime, rows, n);
      assert WellFormed(s1);
      var pending := GetOneTimeTasks(s1, c.policyId);
      assert r == ConsumeAll(s1, pending);
      ConsumedAppended(s, s1, r, c.policyId, pending, rows, n);
      ConsumedEarlier(s, s1, r, c.policyId, pending, rows, n);
    }
  }

  /** The tasks a one-time run appended are all consumed by its consume step. */
  lemma ConsumedAppended(s: Store, s1: Store, r: Store, policyId: string, pending: seq<SeedTask>, rows: seq<Row>, n: nat)
    requires AppendsRows(s, s1, policyId, OneTime, rows, n)
    requires ListsPending(s1, policyId, pending) && MarksExactly(s1, r, IdsOf(pending))
    ensures |r.seedTasks| == |s.seedTasks| + n
    ensures forall k :: 0 <= k < n ==>
              r.seedTasks[|s.seedTasks| + k] == NewSeedTask(s.nextTaskId + k, policyId, OneTime, rows[k]).(isConsumed := true)
  {
    forall k | 0 <= k < n
      ensures r.seedTasks[|s.seedTasks| + k] == NewSeedTask(s.nextTaskId + k, policyId, OneTime, rows[k]).(isConsumed := true)
    {
      ConsumedAppendedAt(s, s1, r, policyId, pending, rows, n, k);
    }
  }

  lemma ConsumedAppendedAt(s: Store, s1: Store, r: Store, policyId: string, pending: seq<SeedTask>, rows: seq<Row>, n: nat, k: nat)
    requires AppendsRows(s, s1, policyId, OneTime, rows, n) && k < n
    requires ListsPending(s1, policyId, pending) && MarksExactly(s1, r, IdsOf(pending))
    ensures r.seedTasks[|s.seedTasks| + k] == NewSeedTask(s.nextTaskId + k, policyId, OneTime, rows[k]).(isConsumed := true)
  {
    var t := s1.seedTasks[|s.seedTasks| + k];
    assert t == NewSeedTask(s.nextTaskId + k, policyId, OneTime, rows[k]);
    assert t in pending;
    assert t.id in IdsOf(pending);
  }

  /** A task stored before a one-time run is left alone or only consumed,
      and consumed only when it belongs to the run's policy. */
  lemma ConsumedEarlier(s: Store, s1: Store, r: Store, policyId: string, pending: seq<SeedTask>, rows: seq<Row>, n: nat)
    requires UniqueTaskIds(s1.seedTasks)
    requires AppendsRows(s, s1, policyId, OneTime, rows, n)
    requires ListsPending(s1, policyId, pending) && MarksExactly(s1, r, IdsOf(pending))
    ensures forall i :: 0 <= i < |s.seedTasks| ==>
              r.seedTasks[i] == s.seedTasks[i]
              || (r.seedTasks[i] == s.seedTasks[i].(isConsumed := true)
                  && (policyId == "" || s.seedTasks[i].policyId == policyId))
  {
    var m := |s.seedTasks|;
    forall i | 0 <= i < m
      ensures r.seedTasks[i] == s.seedTasks[i]
              || (r.seedTasks[i] == s.seedTasks[i].(isConsumed := true)
                  && (policyId == "" || s.seedTasks[i].policyId == policyId))
    {
      assert s1.seedTasks[i] == s1.seedTasks[..m][i];
      if s1.seedTasks[i].id in IdsOf(pending) {
        PendingIdentityIsPending(s1, policyId, pending, i);
      }
    }
  }

  /**
   A one-time run for a non-empty identifier changes no task of any other
   policy: their consumed flags are untouched.
   */
  lemma OneTimeLeavesOtherPoliciesAlone(s: Store, c: PolicyTaskGenConfig, run: string -> QueryOutcome, failAt: Option<nat>, i: int)
    requires WellFormed(s) && c.policyId != ""
    requires 0 <= i < |s.seedTasks| && s.seedTasks[i].policyId != c.policyId
    ensures HandleOneTimeTaskGeneration(s, c, run, failAt).0.seedTasks[i] == s.seedTasks[i]
  {
    if c.taskType == OneTime {
      var s1 := GenerateSeedTasks(s, c, run, failAt).0;
      assert s1.seedTasks[i] == s1.seedTasks[..|s.seedTasks|][i];
      if GenerateSeedTasks(s, c, run, failAt).1 > 0 {
        var pending := GetOneTimeTasks(s1, c.policyId);
        assert WellFormed(s1);
        if s1.seedTasks[i].id in IdsOf(pending) {
          PendingIdentityIsPending(s1, c.policyId, pending, i);
          assert false;
        }
        assert MarksExactly(s1, ConsumeAll(s1, pending), IdsOf(pending));
      }
    }
  }

  /**
   A one-time run whose commit fails at row K (0 < K < row count) answers 0,
   and the K tasks it did commit stay pending: nothing consumes them.
   */
  lemma OneTimePartialFailureLeavesPending(s: Store, c: PolicyTaskGenConfig, run: string -> QueryOutcome, k: nat, j: nat)
    requires c.taskType == OneTime && IsEnabled(s, c.policyId)
    requires 0 < k < |QueryRows(c, run)| && j < k
    ensures var r := HandleOneTimeTaskGeneration(s, c, run, Some(k));
            && r.1 == 0
            && |r.0.seedTasks| == |s.seedTasks| + k
            && r.0.seedTasks[|s.seedTasks| + j] in GetOneTimeTasks(r.0, c.policyId)
            && r.0.seedTasks[|s.seedTasks| + j].taskParams == QueryRows(c, run)[j]
  {
    var g := GenerateSeedTasks(s, c, run, Some(k));
    assert g.1 == 0;
    assert HandleOneTimeTaskGeneration(s, c, run, Some(k)) == g;
    assert AppendsRows(s, g.0, c.policyId, c.taskType, QueryRows(c, run), k);
    var t := g.0.seedTasks[|s.seedTasks| + j];
    assert t == NewSeedTask(s.nextTaskId + j, c.policyId, c.taskType, QueryRows(c, run)[j]);
    assert t in g.0.seedTasks;
  }
}

=== FILE: wrappers.dfy ===
/** The optional value used for lookups that may find nothing (Python's `None`). */
module Wrappers {

  datatype Option<+T> = None | Some(value: T)
}
